=== FILE: README.md ===
# botgo event registry, dispatch and shard sessions in Dafny

This project models the core of botgo, a Go SDK for QQ guild bots. Three parts of the
SDK are modelled:

- **Handler registration** (`websocket/handler.go`, `dto/event_handler.go`). The bot
  passes a list of typed callbacks. Each callback is filed into the process-wide
  `DefaultHandlers` record. The registration returns the gateway intent: the bitwise OR
  of the intent bits of the events each recognised callback listens to.
- **The EventParse builder** (`dto/event.go`). It is an instance-scoped alternative to
  `DefaultHandlers`: a two-level map from (opcode, event type) to a parse function, plus
  an accumulated intent. `AtMessage` installs the AT-message function and ORs in its bit.
- **Frame dispatch** (`websocket/client/event.go`). A constant table sends a dispatch
  frame to one of nine category functions. Each function decodes the frame's `d` member
  and calls its slot of `DefaultHandlers`. Frames outside the table go to the Plain
  callback.
- **The local shard session manager** (`sessions/local/local.go`). Start seeds a
  buffered queue with one fresh session per shard. A launch loop takes sessions off the
  queue and starts a connection task for each. Each task connects, resumes or
  identifies, listens, and then puts a session back on the queue according to a
  reconnection policy. `Stop` closes a stop channel, guarded by an `isStop` flag, but
  nothing receives from that channel: shutdown follows the context alone.

Modules follow the Go packages: `Wrappers` (Option and Result), `Dto`, `Websocket`,
`WebsocketClient` and `SessionsLocal`.

Modelling choices:

- An `Intent` is the set of its bit positions, so Go's `|` is set union.
- The intent bits of each event type come from `dto.EventToIntent`, whose table is not
  part of this model. It is the parameter `table: IntentTable`.
- A Go type switch over `interface{}` values becomes `Handler`: a value of one of twelve
  callback types, or `Unrecognised` for any other value. A typed value may be a typed
  nil, such as `dto.GuildEventHandler(nil)`, which still matches its case. It writes nil
  into its slot and still ORs in its group's bits. Frames of that category are then
  dropped although the intent asks for them. `Websocket.TypedNilDeclaresButClears` and
  `WebsocketClient.NilSlotFrameReachesNoCallback` state the two halves.
- User callbacks are opaque `Callback` identities. What they return is the parameter
  `user: UserCode`.
- JSON decoding is the parameter `codec: Codec`. It consists of the extraction of the
  `d` member and an abstract decoder. Both copies of `parseData` (in `dto/event.go` and
  `websocket/client/event.go`) are the same function, `Dto.ParseData`.
- The nine category functions of `websocket/client/event.go` differ only in their slot
  and data type, so they are modelled as one function, `WebsocketClient.HandleCategory`,
  that takes the category.
- `DefaultHandlers` is a package variable. It is the field `defaultHandlers` of the
  class `Websocket.Registry`, which `RegisterHandlers` updates in place.
- In the session manager, goroutines are sequentialised:
  - one iteration of the launch loop's `select` is either `LaunchNext` or `OnContextDone`;
    the field `launching` records that the loop is running, and `OnContextDone` ends it,
    as the `return nil` at `sessions/local/local.go:67` does, so no launch follows it;
  - a connection task runs to its end in one call of `NewConnect`;
  - the collaborators' outcomes (connect, handshake, listen, the client's session after
    listening) are the parameter `a: Attempt`;
  - `CanNotResume`, `CanNotIdentify` and `CheckSessionLimit` are parameters.
- Go panics appear as results:
  - closing a closed channel returns `panicked`/`None`;
  - a recovered panic in `newConnect` returns the `PanicReport` that `PanicHandler`
    receives.
- A ghost multiset `inFlight` holds the sessions of running tasks. The invariant
  `|sessionChan| + |inFlight| <= capacity` shows that no send on the buffered channel
  ever blocks.

Three behaviours of the code differ from what its comments, or for `Stop` the `isStop`
guard, indicate. The model follows the code:

- `Stop` (`sessions/local/local.go:73-77`) closes `l.stop`, but nothing in the package
  receives from that channel. It is written only at lines 41, 64 and 75. So `Stop` ends
  neither the launch loop nor any connection. Only the context does, at lines 62-67 and
  113-118. In the model, `Stop` changes only the stop channel, so after it `LaunchNext`
  still launches queued sessions.
- `Stop` (`sessions/local/local.go:73-77`) closes the stop channel but never sets
  `isStop`. So a second `Stop`, or a `Stop` followed by the context ending, closes a
  closed channel and panics. `SessionsLocal.StopPanicsExactly` states exactly which
  sequences of close attempts panic.
- The comment at `sessions/local/local.go:128-132` says a not-identifiable listening
  error makes the process exit. The `panic` is raised inside `newConnect`, though, and
  the function's own deferred `recover` (lines 84-90) catches it. The deferred handler
  reports it and puts the session that was passed in back on the queue. So the shard is
  requeued with its original session instead of the process exiting. `SessionsLocal.CanNotIdentifyRequeuesOriginal`
  states this.

## Model

| member | source | states |
|---|---|---|
| Dto.EventToIntent | websocket/handler.go:20-23 | the intent of a list of events holds every listed event's bits and no bit that no listed event has |
| Dto.HandlerSlots.Set | dto/event_handler.go:4-18 | filing a value into one field of DefaultHandlers sets that field to it, nil included, and leaves the other eleven as they were |
| Dto.ZeroHandlersEmpty | dto/event_handler.go:4-18 | the zero DefaultHandlers record has all twelve fields nil |
| Dto.ParseData | websocket/client/event.go:144-147 | parseData, both copies: decoded data always has the type of the target structure, and it fails exactly when the decoder fails on the "d" member |
| Dto.ParseDataReadsOnlyD | websocket/client/event.go:144-147 | decoding depends only on the message's "d" member: messages with the same "d" decode alike |
| Dto.WithAtMessage | dto/event.go:28-38 | AtMessage's new state: the AT-message entry under the dispatch opcode holds the new function, every other entry and the outer keys are unchanged, and the intent gains exactly the AT-message bits |
| Dto.AtMessageLastWins | dto/event.go:29-36 | calling AtMessage twice equals calling it once with the second handler |
| Dto.RunParseFunc | dto/event.go:29-35 | the function AtMessage installs: it calls its own handler, with the frame and AT-message data, exactly when decoding succeeds; it has no nil check |
| Dto.RunParseFuncResult | dto/event.go:29-35 | the installed AT-message function returns the decode error without calling anything, and otherwise returns exactly the handler's result (it has no nil check) |
| Dto.EventParse.constructor | dto/event.go:16-22 | NewEventParse: an empty inner map under the dispatch opcode only, and the zero intent |
| Dto.EventParse.FuncMap | dto/event.go:24-26 | FuncMap returns the stored map and changes nothing |
| Dto.EventParse.AtMessage | dto/event.go:28-38 | the builder's new state is WithAtMessage of its old state, and the receiver is returned for chaining |
| Dto.EventParse.Intent | dto/event.go:40-42 | Intent returns the accumulated intent and changes nothing |
| Websocket.Registry.constructor | dto/event_handler.go:4-18 | the registry starts with the zero DefaultHandlers |
| Websocket.Registry.RegisterHandlers | websocket/handler.go:8-31 | the returned intent is the union of the bits of every recognised handler in the list, and each slot ends up holding the last handler of its type, or keeps its old value when the list has none |
| Websocket.Registry.RegisterRelationHandlers | websocket/handler.go:34-50 | ORs the guild, guild-member and channel handlers' bits into the incoming intent and files exactly those three kinds |
| Websocket.Registry.RegisterMessageHandlers | websocket/handler.go:53-75 | ORs the five message-family handlers' bits into the incoming intent and files exactly those five kinds |
| Websocket.ComposePasses | websocket/handler.go:27-28 | the first pass followed by the two helper passes files every kind, as one pass over all kinds would |
| Websocket.IntentFromUnion | websocket/handler.go:27-28 | the intent contributed by two groups of handler kinds is the union of the two groups' intents, so splitting the kinds across passes loses no bit |
| Websocket.IntentOfSnoc | websocket/handler.go:10-26 | appending one handler ORs in exactly that handler's bits |
| Websocket.IntentOfMembership | websocket/handler.go:8-31 | a bit is in the registered intent if and only if some handler in the list carries it |
| Websocket.IntentOrderIndependent | websocket/handler.go:8-31 | the intent does not depend on the order of the handlers: lists with the same elements give the same intent |
| Websocket.IntentOfAppend | websocket/handler.go:8-31 | registering a concatenation yields the union of the two lists' intents |
| Websocket.CrossCuttingCarryNoBits | websocket/handler.go:12-17 | Ready, ErrorNotify and Plain handlers add no intent bits |
| Websocket.UnrecognisedIgnored | websocket/handler.go:24 | a value of no handler type adds no bits and files nothing |
| Websocket.LastWins | websocket/handler.go:10-26 | when the list has a handler of kind k at position j and none after it, slot k ends up holding that handler's value, which is nil for a typed nil |
| Websocket.AbsentKindUntouched | websocket/handler.go:10-26 | a slot whose kind does not occur in the list keeps its previous value |
| Websocket.SlotHoldsItsOwnType | websocket/handler.go:10-26 | a slot either keeps its previous value or holds a value, callback or typed nil, that the list registered under that slot's own kind |
| Websocket.TypedNilDeclaresButClears | websocket/handler.go:37-39 | a typed nil registered last for kind k leaves slot k nil, and the intent still holds all of k's group bits |
| Websocket.GuildMessageAudioIntent | websocket/event_handler_test.go:23-27 | registering guild, message and audio handlers yields exactly the guild, message and audio events' bits |
| Websocket.AudioOnlyIntent | websocket/handler.go:18-23 | an audio handler alone yields the bits of the four audio events |
| Websocket.AtMessageIntentAgrees | dto/event.go:36 | the builder's AtMessage adds the same bits as registering an AT-message handler globally |
| WebsocketClient.Lookup | websocket/client/event.go:10-40 | the two-level lookup in eventParseFuncMap: only dispatch frames of a named event type are in the table, and every other frame takes the Plain path |
| WebsocketClient.HandleCategory | websocket/client/event.go:56-158 | the nine category functions: a call happens exactly when decoding succeeds and the category's slot is set; it goes to that slot, with the frame and data of the category's own type; an error without a call is a decode error; the branches are stated by DecodeFailureCallsNothing, EmptySlotIsNil and SetSlotResult |
| WebsocketClient.ParseAndHandle | websocket/client/event.go:44-54 | parseAndHandle: a category callback runs only for a frame in the table, in its category's slot, with data of its category's type; Plain runs only for a frame outside the table, with the raw message; the branches are stated by MappedFrameNeverPlain and UnmappedFrame |
| WebsocketClient.TableIsCategoryOf | websocket/client/event.go:10-40 | the table under the dispatch opcode sends each event type to the category an event-by-event reading gives, and holds no other event type |
| WebsocketClient.TableMatchesIntentGroups | websocket/client/event.go:10-40 | an event maps to a category function if and only if it is one of the events whose intent that category's registration declares |
| WebsocketClient.GroupsShareHandler | websocket/client/event.go:12-38 | the three guild events, the four audio events and the two audit events each share one function |
| WebsocketClient.SlotsAreDistinct | websocket/client/event.go:56-158 | each category function calls its own slot, and none calls Ready, ErrorNotify or Plain |
| WebsocketClient.MappedFrameNeverPlain | websocket/client/event.go:46-48 | a frame in the table is handled by its category function alone and never reaches Plain |
| WebsocketClient.UnmappedFrame | websocket/client/event.go:50-53 | a frame outside the table goes to Plain with its raw message when Plain is set, and returns nil otherwise |
| WebsocketClient.DecodeFailureCallsNothing | websocket/client/event.go:58-60 | a decode failure is returned as is and no callback runs |
| WebsocketClient.EmptySlotIsNil | websocket/client/event.go:61-64 | a decoded frame whose slot is nil is dropped and returns nil |
| WebsocketClient.NilSlotFrameReachesNoCallback | websocket/client/event.go:61-64 | a frame in the table whose slot is nil, never filled or filled with a typed nil, reaches no callback |
| WebsocketClient.SetSlotResult | websocket/client/event.go:61-62 | a decoded frame whose slot is set returns exactly what that callback returns for the decoded data |
| WebsocketClient.AtMessageBuilderAgrees | websocket/client/event.go:111-120 | the builder's AT-message function and the global AT-message path give the same outcome when both hold the same callback |
| SessionsLocal.StopNeverSetsFlag | sessions/local/local.go:73-77 | Stop leaves isStop as it was, while the context path raises it |
| SessionsLocal.FlagUpMeansNoOp | sessions/local/local.go:62-66 | once isStop is up, no later close attempt changes anything |
| SessionsLocal.ClosedWithFlagDownPanics | sessions/local/local.go:73-77 | after Stop has closed the channel with the flag down, the next close attempt of either kind panics |
| SessionsLocal.StopPanicsExactly | sessions/local/local.go:62-77 | after Start, a run of close attempts panics if and only if it starts with Stop and has a second attempt |
| SessionsLocal.RunClosesChannel | sessions/local/local.go:62-77 | a non-empty run of close attempts that does not panic leaves the stop channel closed |
| SessionsLocal.HandshakeFor | sessions/local/local.go:99-104 | a session resumes if and only if its id is non-empty, and identifies otherwise |
| SessionsLocal.ConnectFailureRequeuesUnchanged | sessions/local/local.go:92-96 | a failed connect puts the session back exactly as it was |
| SessionsLocal.HandshakeFailureDrops | sessions/local/local.go:105-108 | a failed resume or identify ends the task and puts nothing back |
| SessionsLocal.OrderlyCloseDrops | sessions/local/local.go:120-137 | Listening returning nil ends the task and puts nothing back |
| SessionsLocal.NotResumableClearsBoth | sessions/local/local.go:124-127 | a not-resumable listening error requeues the client's session with id and last sequence both cleared and every other field kept |
| SessionsLocal.TransientPreserves | sessions/local/local.go:134-136 | any other listening error requeues the client's session unchanged |
| SessionsLocal.CanNotIdentifyRequeuesOriginal | sessions/local/local.go:129-133 | a not-identifiable listening error panics, the deferred handler recovers it, and the session as passed in goes back on the queue |
| SessionsLocal.PanicRequeuesOriginal | sessions/local/local.go:84-90 | whatever panics during a task, the session as passed in goes back on the queue |
| SessionsLocal.RequeuedStaysCoherent | sessions/local/local.go:122-135 | provided the original session and the session the client reports are coherent and on the same shard, a requeued session keeps its shard, and an empty id comes with a zero last sequence |
| SessionsLocal.ChanManager.constructor | sessions/local/local.go:17-19 | New gives the zero manager: flag down, no channels made |
| SessionsLocal.ChanManager.Start | sessions/local/local.go:29-57 | a session-limit error for the access point is returned with nothing changed; otherwise the queue has capacity shards and holds one fresh session per shard in shard order, the stop channel is open, the flag is down and the launch loop is running |
| SessionsLocal.ChanManager.LaunchNext | sessions/local/local.go:59-61 | while the launch loop runs, the oldest queued session is taken off the queue and becomes a running task; the buffer bound is kept |
| SessionsLocal.ChanManager.OnContextDone | sessions/local/local.go:62-67 | when the context ends, the stop channel is closed and the flag raised unless the flag is already up; this panics exactly when the channel is already closed with the flag down; the launch loop returns, so LaunchNext can no longer be called |
| SessionsLocal.ChanManager.Stop | sessions/local/local.go:73-77 | Stop closes the stop channel unless the flag is up, never touches the flag, and panics exactly when the channel is already closed with the flag down |
| SessionsLocal.ChanManager.NewConnect | sessions/local/local.go:83-138 | the task's session leaves the running set, the queue gains exactly the session the reconnection policy picks, the handshake is chosen by the session id, a panic is reported with the original session, and no send blocks |

## Left out

- Goroutines, `select` and `time.Sleep` are left out. The launch loop is the two step methods `LaunchNext` and `OnContextDone`. A connection task runs to its end inside one call.
- `manager.CalcInterval` and the pause between launches are left out: timing only.
- `CheckSessionLimit`, `CanNotResume` and `CanNotIdentify` are parameters, because their bodies are not part of this model.
- The intent bit table behind `dto.EventToIntent` is a parameter. The concrete opcode, event-type string and intent-bit values are not part of this model.
- `websocket.ClientImpl`, `websocket.PanicHandler` and `encoding/json` are not part of this model. The client's outcomes are the `Attempt` parameter, a `PanicReport` stands for the `PanicHandler` call, and decoding is the `Codec` parameter.
- Logging (`log.Errorf`, `log.Sync`) is left out, because it has no effect on state.
- The Ready and ErrorNotify callbacks are only filed. The code that invokes them is not part of this model.
- `Dto.EventParse.AtMessage`: the handler is never nil here. In Go, a nil handler is installed and panics only when its function runs on an AT-message frame.
- `Dto.EventParse.AtMessage`: `requires Valid()` leaves out a zero-value `dto.EventParse{}` that was not built by `NewEventParse`. Its map is nil, so the nested write at `dto/event.go:29` panics.
- `SessionsLocal.ChanManager.Start`: the token is a value here. In Go, a nil token panics at `*token` (`sessions/local/local.go:46`) after `sessionChan`, `stop` and `isStop` have already been reset. That partial reset is not modelled.
- `Dto.EventParse.FuncMap`: Go returns the map itself, which the caller may then mutate. Here it is a value, so aliasing is not captured.
- `wsClient.Session()` returning nil, which would make the requeue path panic, is not modelled: the attempt always reports a session.
- The per-connection goroutine that closes the client when the context ends or the task returns is left out. So is `Close` itself.
- `SessionsLocal.RequeuedStaysCoherent`: the shard and coherence guarantees hold only if `wsClient.Session()` (`sessions/local/local.go:122`) reports a coherent session on the same shard. The code does not check this; on the transient path it requeues that report as it is.
- `SessionsLocal.PanicRequeuesOriginal`: the session goes back as it was passed in only if `websocket.PanicHandler` does not write through the pointer it receives (`sessions/local/local.go:87`). That pointer aliases the variable that is then requeued. The handler's body is not part of this model.
- `SessionsLocal.CanNotIdentifyRequeuesOriginal`: the same assumption about `websocket.PanicHandler` applies.
- `SessionsLocal.ChanManager.NewConnect`: the same assumption about `websocket.PanicHandler` applies to the session requeued after a recovered panic.
- `SessionsLocal.ChanManager.Start`: tasks launched by an earlier `Start` are forgotten when `Start` runs again. The model does not track them.
- `openapi/iface.go` holds only interfaces for the REST client, outside the modelled core.

=== FILE: dto.dfy ===
/**
 * The shared types of the gateway client (package dto): the process-wide record of
 * handler slots, the event and opcode vocabulary, the intent bitmask, the two-step
 * payload decoder, the shard session value, and the instance-scoped EventParse builder.
 */
module Dto {
  import opened Wrappers

  newtype byte = x: int | 0 <= x < 256

  /** A Go error value; its text is all the model keeps of it. */
  datatype Error = Error(message: string)

  /**
   * The envelope opcode. Only the dispatch opcode is named by the core. `OtherOPCode`
   * stands for every other opcode: its `code` is never the dispatch opcode's number,
   * so each Go opcode has exactly one representation here.
   */
  datatype OPCode = WSDispatchEvent | OtherOPCode(code: int)

  /**
   * The envelope event type. Types not named by the core are `OtherEvent`: its `name`
   * is never the string of a named type, so each Go event type has exactly one
   * representation here.
   */
  datatype EventType =
    | EventGuildCreate | EventGuildUpdate | EventGuildDelete
    | EventChannelCreate | EventChannelUpdate | EventChannelDelete
    | EventGuildMemberAdd | EventGuildMemberUpdate | EventGuildMemberRemove
    | EventMessageCreate
    | EventMessageReactionAdd | EventMessageReactionRemove
    | EventAtMessageCreate | EventDirectMessageCreate
    | EventAudioStart | EventAudioFinish | EventAudioOnMic | EventAudioOffMic
    | EventMessageAuditPass | EventMessageAuditReject
    | OtherEvent(name: string)

  // ---------------------------------------------------------------------------
  // Intents
  // ---------------------------------------------------------------------------

  /** A bit position of the intent bitmask. */
  type IntentBit = nat

  /** The intent bitmask, as the set of its one bits: bitwise OR is set union. */
  type Intent = set<IntentBit>

  /** The bits dto.EventToIntent assigns to each single event; its table is not part of this model. */
  type IntentTable = EventType -> Intent

  /** dto.EventToIntent over a list of events: the OR of the bits of every listed event. */
  function EventToIntent(table: IntentTable, events: seq<EventType>): (i: Intent)
    ensures forall e :: e in events ==> table(e) <= i
    ensures forall b :: b in i ==> exists e :: e in events && b in table(e)
  {
    if events == [] then {}
    else EventToIntent(table, events[..|events| - 1]) + table(events[|events| - 1])
  }

  // ---------------------------------------------------------------------------
  // Handler values and the DefaultHandlers record
  // ---------------------------------------------------------------------------

  /** A user-supplied Go function value, known only by its identity. */
  datatype Callback = Callback(id: nat)

  /** The twelve recognised callback types, one per slot of DefaultHandlers. */
  datatype HandlerKind =
    | Ready | ErrorNotify | Plain
    | Guild | GuildMember | Channel
    | Message | MessageReaction | ATMessage | DirectMessage
    | Audio | MessageAudit

  /**
   * A value passed to RegisterHandlers: a value of one of the recognised function
   * types, or any other value (`Unrecognised`), which a Go type switch matches with
   * no case. A typed value may be a typed nil (`callback == None`): its type still
   * selects the case, so it is filed, as nil, like any other callback of that type.
   */
  datatype Handler = Typed(kind: HandlerKind, callback: Option<Callback>) | Unrecognised

  /** The DefaultHandlers record: one optional callback per recognised type. */
  datatype HandlerSlots = HandlerSlots(
    ready: Option<Callback>,
    errorNotify: Option<Callback>,
    plain: Option<Callback>,
    guild: Option<Callback>,
    guildMember: Option<Callback>,
    channel: Option<Callback>,
    message: Option<Callback>,
    messageReaction: Option<Callback>,
    atMessage: Option<Callback>,
    directMessage: Option<Callback>,
    audio: Option<Callback>,
    messageAudit: Option<Callback>)
  {
    /** The slot that holds callbacks of type `k`. */
    function Get(k: HandlerKind): Option<Callback>
    {
      match k
      case Ready => ready
      case ErrorNotify => errorNotify
      case Plain => plain
      case Guild => guild
      case GuildMember => guildMember
      case Channel => channel
      case Message => message
      case MessageReaction => messageReaction
      case ATMessage => atMessage
      case DirectMessage => directMessage
      case Audio => audio
      case MessageAudit => messageAudit
    }

    /** This record with slot `k` set to `cb`. */
    function Set(k: HandlerKind, cb: Option<Callback>): (r: HandlerSlots)
      ensures r.Get(k) == cb
      ensures forall j :: j != k ==> r.Get(j) == Get(j)
    {
      match k
      case Ready => this.(ready := cb)
      case ErrorNotify => this.(errorNotify := cb)
      case Plain => this.(plain := cb)
      case Guild => this.(guild := cb)
      case GuildMember => this.(guildMember := cb)
      case Channel => this.(channel := cb)
      case Message => this.(message := cb)
      case MessageReaction => this.(messageReaction := cb)
      case ATMessage => this.(atMessage := cb)
      case DirectMessage => this.(directMessage := cb)
      case Audio => this.(audio := cb)
      case MessageAudit => this.(messageAudit := cb)
    }
  }

  /** The zero value of the package variable: every slot nil. */
  const ZeroHandlers: HandlerSlots :=
    HandlerSlots(None, None, None, None, None, None, None, None, None, None, None, None)

  /** All twelve slot types. */
  const AllKinds: set<HandlerKind> :=
    {Ready, ErrorNotify, Plain, Guild, GuildMember, Channel,
     Message, MessageReaction, ATMessage, DirectMessage, Audio, MessageAudit}

  /** Every slot is nil before any registration. */
  lemma ZeroHandlersEmpty()
    ensures forall k :: ZeroHandlers.Get(k) == None
  {
  }

  // ---------------------------------------------------------------------------
  // Frames, decoding and handler invocation
  // ---------------------------------------------------------------------------

  /** A received frame: its opcode, its event type and the whole raw message. */
  datatype WSPayload = WSPayload(opCode: OPCode, eventType: EventType, rawMessage: seq<byte>)

  /** The typed structure a category's payload decodes into. */
  datatype DataKind =
    | GuildData | GuildMemberData | ChannelData | MessageData | MessageReactionData
    | ATMessageData | DirectMessageData | AudioData | MessageAuditData

  /**
   * A decoded payload structure: the Go type it was decoded into, and its field
   * values, kept abstractly as the decoder's output.
   */
  datatype EventData = EventData(kind: DataKind, fields: seq<byte>)

  /**
   * The foreign JSON library, as two abstract steps: `field` extracts the "d"
   * member of an envelope (empty when absent), `unmarshal` decodes a document into
   * the field values of the structure of the given kind, or fails. The structure's
   * type is the target's, which Go's static typing fixes, so the decoder returns
   * only the field values.
   */
  datatype Codec = Codec(
    field: seq<byte> -> seq<byte>,
    unmarshal: (DataKind, seq<byte>) -> Result<seq<byte>, Error>)

  /**
   * The bodies of user callbacks, as opaque results: what a category callback
   * returns for a frame and its decoded data, and what a Plain callback returns for
   * a frame and its raw message.
   */
  datatype UserCode = UserCode(
    handle: (Callback, WSPayload, EventData) -> Option<Error>,
    plain: (Callback, WSPayload, seq<byte>) -> Option<Error>)

  /** A callback invocation: which function ran, with what. */
  datatype Call =
    | HandlerCall(kind: HandlerKind, callback: Callback, event: WSPayload, data: EventData)
    | PlainCall(callback: Callback, event: WSPayload, message: seq<byte>)

  /** What handling one frame did: the callback invoked, if any, and the error returned. */
  datatype Outcome = Outcome(called: Option<Call>, err: Option<Error>)

  /**
   * parseData: extract the "d" member of the message, then decode that member alone
   * into the target structure. What decodes is always of the target's type, and a
   * failure is the decoder's own error.
   */
  function ParseData(codec: Codec, message: seq<byte>, target: DataKind): (r: Result<EventData, Error>)
    ensures r.Ok? ==> r.value.kind == target
    ensures r.Err? <==> codec.unmarshal(target, codec.field(message)).Err?
  {
    match codec.unmarshal(target, codec.field(message))
    case Err(e) => Err(e)
    case Ok(fields) => Ok(EventData(target, fields))
  }

  /** Decoding reads nothing of the envelope but its "d" member. */
  lemma ParseDataReadsOnlyD(codec: Codec, m1: seq<byte>, m2: seq<byte>, target: DataKind)
    requires codec.field(m1) == codec.field(m2)
    ensures ParseData(codec, m1, target) == ParseData(codec, m2, target)
  {
  }

  // ---------------------------------------------------------------------------
  // Shard sessions and access point info
  // ---------------------------------------------------------------------------

  /** The bot credential; its contents are not modelled. */
  datatype Token = Token(value: string)

  datatype ShardConfig = ShardConfig(shardID: nat, shardCount: nat)

  /** One shard's identity: resumable session id, last sequence, shard index and count. */
  datatype Session = Session(
    id: string,
    url: string,
    token: Token,
    handlers: EventParse?,
    lastSeq: nat,
    shards: ShardConfig)

  datatype SessionStartLimit = SessionStartLimit(total: nat, remaining: nat, resetAfter: nat, maxConcurrency: nat)

  /** The gateway access point: its URL, the shard count to run, the session-start quota. */
  datatype WebsocketAP = WebsocketAP(url: string, shards: nat, sessionStartLimit: SessionStartLimit)

  // ---------------------------------------------------------------------------
  // EventParse: the instance-scoped dispatch map and intent
  // ---------------------------------------------------------------------------

  /**
   * A function installed in an EventParse map. Go installs a closure; the only
   * closure the builder creates is the one AtMessage makes around its handler.
   */
  datatype ParseFunc = AtMessageParse(handler: Callback)

  type FuncMap = map<OPCode, map<EventType, ParseFunc>>

  /** The entry for (op, ev), as Go's two-level lookup finds it (a missing outer key finds nothing). */
  function Entry(m: FuncMap, op: OPCode, ev: EventType): Option<ParseFunc>
  {
    if op in m && ev in m[op] then Some(m[op][ev]) else None
  }

  /** The observable state of an EventParse. */
  datatype ParserState = ParserState(funcMap: FuncMap, intent: Intent)

  /** The state NewEventParse creates: an empty inner map under the dispatch opcode, zero intent. */
  const NewParserState: ParserState := ParserState(map[WSDispatchEvent := map[]], {})

  /** The state AtMessage leaves behind. */
  function WithAtMessage(s: ParserState, table: IntentTable, handler: Callback): (r: ParserState)
    requires WSDispatchEvent in s.funcMap
    ensures r.funcMap.Keys == s.funcMap.Keys
    ensures Entry(r.funcMap, WSDispatchEvent, EventAtMessageCreate) == Some(AtMessageParse(handler))
    ensures forall op, ev :: (op, ev) != (WSDispatchEvent, EventAtMessageCreate) ==>
      Entry(r.funcMap, op, ev) == Entry(s.funcMap, op, ev)
    ensures forall b :: b in r.intent <==> b in s.intent || b in table(EventAtMessageCreate)
  {
    var inner := s.funcMap[WSDispatchEvent][EventAtMessageCreate := AtMessageParse(handler)];
    ParserState(s.funcMap[WSDispatchEvent := inner], s.intent + EventToIntent(table, [EventAtMessageCreate]))
  }

  /** Registering an AT-message handler again replaces the first and adds no bits: the last call wins. */
  lemma AtMessageLastWins(s: ParserState, table: IntentTable, h1: Callback, h2: Callback)
    requires WSDispatchEvent in s.funcMap
    ensures WithAtMessage(WithAtMessage(s, table, h1), table, h2) == WithAtMessage(s, table, h2)
  {
    var once := WithAtMessage(s, table, h2);
    var twice := WithAtMessage(WithAtMessage(s, table, h1), table, h2);
    assert twice.funcMap[WSDispatchEvent] == once.funcMap[WSDispatchEvent];
    assert twice.funcMap == once.funcMap;
  }

  /**
   * What an installed function does with a frame: decode into the AT-message
   * structure, then call the handler; there is no nil check. So it calls its own
   * handler, with AT-message data, exactly when decoding succeeds.
   */
  function RunParseFunc(codec: Codec, user: UserCode, f: ParseFunc, event: WSPayload, message: seq<byte>): (o: Outcome)
    ensures o.called.Some? <==> ParseData(codec, message, ATMessageData).Ok?
    ensures o.called.Some? ==>
      && o.called.value.HandlerCall?
      && o.called.value.kind == ATMessage && o.called.value.callback == f.handler
      && o.called.value.event == event && o.called.value.data.kind == ATMessageData
  {
    match ParseData(codec, message, ATMessageData)
    case Err(e) => Outcome(None, Some(e))
    case Ok(data) => Outcome(Some(HandlerCall(ATMessage, f.handler, event, data)), user.handle(f.handler, event, data))
  }

  /** The installed function returns the decode error without a call, and otherwise exactly the handler's result. */
  lemma RunParseFuncResult(codec: Codec, user: UserCode, h: Callback, event: WSPayload, message: seq<byte>)
    ensures ParseData(codec, message, ATMessageData).Err? ==>
      RunParseFunc(codec, user, AtMessageParse(h), event, message)
        == Outcome(None, Some(ParseData(codec, message, ATMessageData).error))
    ensures ParseData(codec, message, ATMessageData).Ok? ==>
      var data := ParseData(codec, message, ATMessageData).value;
      RunParseFunc(codec, user, AtMessageParse(h), event, message)
        == Outcome(Some(HandlerCall(ATMessage, h, event, data)), user.handle(h, event, data))
  {
  }

  /** The builder: Go's EventParse, with its dispatch map and accumulated intent. */
  class EventParse {
    var funcMap: FuncMap
    var intent: Intent

    /** The dispatch opcode's inner map exists, so AtMessage's nested write cannot hit a nil map. */
    ghost predicate Valid()
      reads this
    {
      WSDispatchEvent in funcMap
    }

    ghost function State(): ParserState
      reads this
    {
      ParserState(funcMap, intent)
    }

    /** NewEventParse. */
    constructor ()
      ensures Valid()
      ensures State() == NewParserState
      ensures funcMap.Keys == {WSDispatchEvent} && funcMap[WSDispatchEvent] == map[] && intent == {}
    {
      funcMap := map[WSDispatchEvent := map[]];
      intent := {};
    }

    /** FuncMap: hands back the stored map and changes nothing. */
    method FuncMap() returns (m: FuncMap)
      ensures m == funcMap
    {
      m := funcMap;
    }

    /** AtMessage: installs the AT-message function, ORs in its intent, and returns the receiver. */
    method AtMessage(table: IntentTable, handler: Callback) returns (self: EventParse)
      requires Valid()
      modifies this
      ensures Valid()
      ensures State() == WithAtMessage(old(State()), table, handler)
      ensures self == this
    {
      var inner := funcMap[WSDispatchEvent];
      inner := inner[EventAtMessageCreate := AtMessageParse(handler)];
      funcMap := funcMap[WSDispatchEvent := inner];
      intent := intent + EventToIntent(table, [EventAtMessageCreate]);
      self := this;
    }

    /** Intent: hands back the stored intent and changes nothing. */
    method Intent() returns (i: Intent)
      ensures i == intent
    {
      i := intent;
    }
  }
}

=== FILE: sessions_local.dfy ===
/**
 * The single-process shard session manager (package sessions/local): a bounded
 * FIFO of shard sessions seeded with one entry per shard, a launch loop that
 * takes one session at a time and starts a connection task for it, the task's
 * reconnection policy, and the stop channel with its flag.
 *
 * Goroutines and sleeps are gone: a launch-loop iteration is one method call,
 * and a connection task runs to its end in one call of NewConnect. The sessions
 * held by tasks that were launched and have not finished are tracked in a ghost
 * multiset, which is what bounds the queue.
 */
module SessionsLocal {
  import opened Wrappers
  import opened Dto

  // ---------------------------------------------------------------------------
  // The stop channel and its flag
  // ---------------------------------------------------------------------------

  /** A Go channel that has not been made yet, one that is open, or one that was closed. */
  datatype ChanState = NilChan | Open | Closed

  /** The manager's isStop flag and its stop channel. */
  datatype StopState = StopState(isStop: bool, stop: ChanState)

  /** What may try to close the stop channel: a Stop() call, or the launch loop seeing the context end. */
  datatype StopEvent = StopCall | ContextDone

  /** The state Start leaves: the flag down and a freshly made channel. */
  const Started: StopState := StopState(false, Open)

  /**
   * One close attempt. Both paths close only while the flag is down, and closing a
   * channel that is not open panics (None). Only the context path raises the flag.
   */
  function StopStep(s: StopState, ev: StopEvent): Option<StopState>
  {
    if s.isStop then Some(s)
    else if s.stop != Open then None
    else
      match ev
      case StopCall => Some(s.(stop := Closed))
      case ContextDone => Some(StopState(true, Closed))
  }

  /** A sequence of close attempts, ending at the first panic. */
  function RunStops(s: StopState, evs: seq<StopEvent>): Option<StopState>
    decreases |evs|
  {
    if evs == [] then Some(s)
    else
      match StopStep(s, evs[0])
      case None => None
      case Some(next) => RunStops(next, evs[1..])
  }

  /** Stop() never raises the flag; the context path always leaves it up. */
  lemma StopNeverSetsFlag(s: StopState)
    ensures StopStep(s, StopCall).Some? ==> StopStep(s, StopCall).value.isStop == s.isStop
    ensures StopStep(s, ContextDone).Some? ==> StopStep(s, ContextDone).value.isStop
  {
  }

  /** Once the flag is up, no later close attempt does anything. */
  lemma {:induction false} FlagUpMeansNoOp(s: StopState, evs: seq<StopEvent>)
    requires s.isStop
    ensures RunStops(s, evs) == Some(s)
  {
    if evs != [] {
      FlagUpMeansNoOp(s, evs[1..]);
    }
  }

  /** Once Stop() has closed the channel with the flag down, the next close attempt of either kind panics. */
  lemma ClosedWithFlagDownPanics(evs: seq<StopEvent>)
    requires evs != []
    ensures RunStops(StopState(false, Closed), evs) == None
  {
  }

  /**
   * After Start, a run of close attempts panics exactly when it begins with a Stop()
   * call and anything follows: a second Stop() or a context end closes the closed channel.
   */
  lemma {:induction false} StopPanicsExactly(evs: seq<StopEvent>)
    ensures RunStops(Started, evs).None? <==> |evs| >= 2 && evs[0] == StopCall
  {
    if evs != [] {
      match evs[0]
      case StopCall =>
        if |evs| >= 2 {
          ClosedWithFlagDownPanics(evs[1..]);
        }
      case ContextDone =>
        FlagUpMeansNoOp(StopState(true, Closed), evs[1..]);
    }
  }

  /** A run that does not panic closes the channel as soon as it has one attempt, and closes it once. */
  lemma {:induction false} RunClosesChannel(evs: seq<StopEvent>)
    requires evs != [] && RunStops(Started, evs).Some?
    ensures RunStops(Started, evs).value.stop == Closed
  {
    match evs[0]
    case StopCall =>
      StopPanicsExactly(evs);
    case ContextDone =>
      FlagUpMeansNoOp(StopState(true, Closed), evs[1..]);
  }

  // ---------------------------------------------------------------------------
  // The connection task's policy
  // ---------------------------------------------------------------------------

  /** The handshake a connection performs. */
  datatype Handshake = Resume | Identify

  /** A session with an id resumes; one without identifies afresh. */
  function HandshakeFor(s: Session): (h: Handshake)
    ensures h == Resume <==> s.id != ""
  {
    if s.id != "" then Resume else Identify
  }

  /** How a collaborator call ended: it returned an error or nil, or it panicked. */
  datatype CallResult = Returned(err: Option<Error>) | Panicked(cause: Error)

  /**
   * What the collaborators do during one connection attempt: Connect (including the
   * client's construction), the chosen handshake, Listening, and the session the
   * client reports once Listening has returned.
   */
  datatype Attempt = Attempt(connect: CallResult, handshake: CallResult, listening: CallResult, current: Session)

  /** The value a recovered panic carried. */
  datatype PanicValue = CollaboratorPanic(cause: Error) | CanNotIdentifyPanic(err: Error)

  /** A call of websocket.PanicHandler: the panic value and the session it is told about. */
  datatype PanicReport = PanicReport(value: PanicValue, session: Session)

  /** The session with its resumable identity cleared: both id and last sequence, together. */
  function Cleared(s: Session): Session
  {
    s.(id := "", lastSeq := 0)
  }

  /** Whether the attempt ends in a panic, which newConnect's own deferred handler recovers. */
  predicate Recovers(a: Attempt, canNotIdentify: Error -> bool)
  {
    || a.connect.Panicked?
    || (a.connect == Returned(None) && a.handshake.Panicked?)
    || (a.connect == Returned(None) && a.handshake == Returned(None)
        && (a.listening.Panicked? || (a.listening.Returned? && a.listening.err.Some? && canNotIdentify(a.listening.err.value))))
  }

  /**
   * The session a connection task puts back on the queue, if any: the task's
   * reconnection policy, stated case by case.
   */
  function Requeued(session: Session, a: Attempt, canNotResume: Error -> bool, canNotIdentify: Error -> bool): Option<Session>
  {
    if Recovers(a, canNotIdentify) then Some(session)
    else if a.connect.err.Some? then Some(session)
    else if a.handshake.err.Some? then None
    else if a.listening.err.None? then None
    else if canNotResume(a.listening.err.value) then Some(Cleared(a.current))
    else Some(a.current)
  }

  function AsQueue(o: Option<Session>): (q: seq<Session>)
    ensures |q| <= 1
    ensures o.None? <==> q == []
    ensures o.Some? ==> q == [o.value]
  {
    if o.Some? then [o.value] else []
  }

  /** A failed connect puts the session back exactly as it was. */
  lemma ConnectFailureRequeuesUnchanged(session: Session, a: Attempt, canNotResume: Error -> bool,
                                        canNotIdentify: Error -> bool, e: Error)
    requires a.connect == Returned(Some(e))
    ensures Requeued(session, a, canNotResume, canNotIdentify) == Some(session)
  {
  }

  /** A failed handshake ends the task and puts nothing back. */
  lemma HandshakeFailureDrops(session: Session, a: Attempt, canNotResume: Error -> bool,
                              canNotIdentify: Error -> bool, e: Error)
    requires a.connect == Returned(None) && a.handshake == Returned(Some(e))
    ensures Requeued(session, a, canNotResume, canNotIdentify) == None
  {
  }

  /** Listening ending without an error ends the task and puts nothing back. */
  lemma OrderlyCloseDrops(session: Session, a: Attempt, canNotResume: Error -> bool, canNotIdentify: Error -> bool)
    requires a.connect == Returned(None) && a.handshake == Returned(None) && a.listening == Returned(None)
    ensures Requeued(session, a, canNotResume, canNotIdentify) == None
  {
  }

  /**
   * A not-resumable listening error (that is not also not-identifiable) requeues the
   * client's current session with id and last sequence both cleared, everything else kept.
   */
  lemma NotResumableClearsBoth(session: Session, a: Attempt, canNotResume: Error -> bool,
                               canNotIdentify: Error -> bool, e: Error)
    requires a.connect == Returned(None) && a.handshake == Returned(None) && a.listening == Returned(Some(e))
    requires canNotResume(e) && !canNotIdentify(e)
    ensures var r := Requeued(session, a, canNotResume, canNotIdentify);
      r.Some? && r.value.id == "" && r.value.lastSeq == 0
      && r.value.(id := a.current.id, lastSeq := a.current.lastSeq) == a.current
  {
  }

  /** Any other listening error requeues the client's current session with id and last sequence kept. */
  lemma TransientPreserves(session: Session, a: Attempt, canNotResume: Error -> bool,
                           canNotIdentify: Error -> bool, e: Error)
    requires a.connect == Returned(None) && a.handshake == Returned(None) && a.listening == Returned(Some(e))
    requires !canNotResume(e) && !canNotIdentify(e)
    ensures Requeued(session, a, canNotResume, canNotIdentify) == Some(a.current)
  {
  }

  /**
   * The not-identifiable panic does not end the process: newConnect recovers it itself
   * and requeues the session as it was passed in, whatever the client's session became
   * and even when the error is also not resumable.
   */
  lemma CanNotIdentifyRequeuesOriginal(session: Session, a: Attempt, canNotResume: Error -> bool,
                                       canNotIdentify: Error -> bool, e: Error)
    requires a.connect == Returned(None) && a.handshake == Returned(None) && a.listening == Returned(Some(e))
    requires canNotIdentify(e)
    ensures Requeued(session, a, canNotResume, canNotIdentify) == Some(session)
  {
  }

  /** Whatever a collaborator panics with, the session as passed in goes back on the queue. */
  lemma PanicRequeuesOriginal(session: Session, a: Attempt, canNotResume: Error -> bool, canNotIdentify: Error -> bool)
    requires Recovers(a, canNotIdentify)
    ensures Requeued(session, a, canNotResume, canNotIdentify) == Some(session)
  {
  }

  /** A session whose id is empty has a zero last sequence: id and sequence are cleared together. */
  predicate Coherent(s: Session)
  {
    s.id == "" ==> s.lastSeq == 0
  }

  /**
   * Requeueing keeps sessions coherent and on their shard, provided the client reports
   * a coherent session for the same shard.
   */
  lemma RequeuedStaysCoherent(session: Session, a: Attempt, canNotResume: Error -> bool, canNotIdentify: Error -> bool)
    requires Coherent(session) && Coherent(a.current) && a.current.shards == session.shards
    ensures var r := Requeued(session, a, canNotResume, canNotIdentify);
      r.Some? ==> Coherent(r.value) && r.value.shards == session.shards
  {
  }

  /** The session Start creates for shard `i`. */
  function ShardSession(ap: WebsocketAP, token: Token, handlers: EventParse?, i: nat): Session
  {
    Session("", ap.url, token, handlers, 0, ShardConfig(i, ap.shards))
  }

  // ---------------------------------------------------------------------------
  // The manager
  // ---------------------------------------------------------------------------

  /** ChanManager: the stop flag and channel, and the buffered session channel. */
  class ChanManager {
    var isStop: bool
    var stop: ChanState
    /** The sessions waiting in sessionChan, oldest first. */
    var sessionChan: seq<Session>
    /** The buffer size sessionChan was made with. */
    var capacity: nat
    /** Whether Start's launch loop is running: set once seeding is done, cleared when the loop returns. */
    var launching: bool
    /** The sessions held by connection tasks that were launched and have not finished. */
    ghost var inFlight: multiset<Session>

    /** Queued and running sessions together never outnumber the buffer, so no send ever blocks. */
    ghost predicate Valid()
      reads this
    {
      |sessionChan| + |inFlight| <= capacity
    }

    ghost function StopStateOf(): StopState
      reads this
    {
      StopState(isStop, stop)
    }

    /** New: the zero-valued manager, with no channels made yet. */
    constructor ()
      ensures Valid()
      ensures StopStateOf() == StopState(false, NilChan)
      ensures sessionChan == [] && capacity == 0 && inFlight == multiset{} && !launching
    {
      launching := false;
      isStop, stop := false, NilChan;
      sessionChan, capacity := [], 0;
      inFlight := multiset{};
    }

    /** A send on sessionChan while the buffer has room for it and for every running task's session. */
    method Send(s: Session)
      requires |sessionChan| + |inFlight| < capacity
      modifies this`sessionChan
      ensures sessionChan == old(sessionChan) + [s]
    {
      sessionChan := sessionChan + [s];
    }

    /**
     * Start, up to its launch loop: the session-limit check on the access point,
     * then the queue, sized to the shard count, seeded with one fresh session per shard.
     */
    method Start(ap: WebsocketAP, token: Token, handlers: EventParse?, checkSessionLimit: WebsocketAP -> Option<Error>)
      returns (err: Option<Error>)
      modifies this
      ensures checkSessionLimit(ap).Some? ==> err == checkSessionLimit(ap) && unchanged(this)
      ensures checkSessionLimit(ap).None? ==> err.None? && Valid()
      ensures checkSessionLimit(ap).None? ==> StopStateOf() == Started && capacity == ap.shards && inFlight == multiset{}
      ensures checkSessionLimit(ap).None? ==> launching
      ensures checkSessionLimit(ap).None? ==> |sessionChan| == ap.shards
      ensures checkSessionLimit(ap).None? ==> forall i :: 0 <= i < ap.shards ==> sessionChan[i] == ShardSession(ap, token, handlers, i)
    {
      var limit := checkSessionLimit(ap);
      if limit.Some? {
        return limit;
      }
      sessionChan, capacity := [], ap.shards;
      inFlight := multiset{};
      stop := Open;
      isStop := false;
      for i := 0 to ap.shards
        invariant capacity == ap.shards && inFlight == multiset{}
        invariant StopStateOf() == Started
        invariant |sessionChan| == i
        invariant forall j :: 0 <= j < i ==> sessionChan[j] == ShardSession(ap, token, handlers, j)
      {
        var session := Session("", ap.url, token, handlers, 0, ShardConfig(i, ap.shards));
        Send(session);
      }
      launching := true;
      return None;
    }

    /** The launch loop's receive branch: take the oldest queued session and start a task for it. */
    method LaunchNext() returns (launched: Option<Session>)
      requires Valid() && launching
      modifies this`sessionChan, this`inFlight
      ensures Valid()
      ensures old(sessionChan) == [] ==> launched == None && sessionChan == [] && inFlight == old(inFlight)
      ensures old(sessionChan) != [] ==>
        && launched == Some(old(sessionChan)[0])
        && sessionChan == old(sessionChan)[1..]
        && inFlight == old(inFlight) + multiset{old(sessionChan)[0]}
    {
      if sessionChan == [] {
        return None;
      }
      var session := sessionChan[0];
      sessionChan := sessionChan[1..];
      inFlight := inFlight + multiset{session};
      return Some(session);
    }

    /**
     * The launch loop's context branch: close stop and raise the flag, unless the flag
     * is up; then the loop, and Start with it, returns, so nothing more is launched.
     */
    method OnContextDone() returns (panicked: bool)
      requires launching
      modifies this`isStop, this`stop, this`launching
      ensures !launching
      ensures panicked <==> StopStep(old(StopStateOf()), ContextDone).None?
      ensures panicked ==> StopStateOf() == old(StopStateOf())
      ensures !panicked ==> StopStateOf() == StopStep(old(StopStateOf()), ContextDone).value
    {
      launching := false;
      if !isStop {
        if stop != Open {
          return true;
        }
        stop := Closed;
        isStop := true;
      }
      return false;
    }

    /** Stop: close stop unless the flag is up; the flag itself is left as it was. */
    method Stop() returns (panicked: bool)
      modifies this`stop
      ensures panicked <==> StopStep(old(StopStateOf()), StopCall).None?
      ensures panicked ==> StopStateOf() == old(StopStateOf())
      ensures !panicked ==> StopStateOf() == StopStep(old(StopStateOf()), StopCall).value
    {
      if !isStop {
        if stop != Open {
          return true;
        }
        stop := Closed;
      }
      return false;
    }

    /**
     * newConnect for a launched session: connect, resume or identify, listen, and on
     * the way out requeue according to the policy; a panic anywhere is recovered by
     * the function's own deferred handler, which reports it and requeues `session`.
     */
    method NewConnect(session: Session, a: Attempt, canNotResume: Error -> bool, canNotIdentify: Error -> bool)
      returns (handshake: Option<Handshake>, report: Option<PanicReport>)
      requires Valid() && session in inFlight
      modifies this`sessionChan, this`inFlight
      ensures Valid()
      ensures inFlight == old(inFlight) - multiset{session}
      ensures sessionChan == old(sessionChan) + AsQueue(Requeued(session, a, canNotResume, canNotIdentify))
      ensures handshake == if a.connect == Returned(None) then Some(HandshakeFor(session)) else None
      ensures report.Some? <==> Recovers(a, canNotIdentify)
      ensures report.Some? ==> report.value.session == session
    {
      inFlight := inFlight - multiset{session};
      handshake, report := None, None;
      var recovered: Option<PanicValue> := None;
      match a.connect {
        case Panicked(c) =>
          recovered := Some(CollaboratorPanic(c));
        case Returned(Some(_)) =>
          Send(session);
        case Returned(None) =>
          handshake := Some(if session.id != "" then Resume else Identify);
          match a.handshake {
            case Panicked(c) =>
              recovered := Some(CollaboratorPanic(c));
            case Returned(Some(_)) =>
            case Returned(None) =>
              match a.listening {
                case Panicked(c) =>
                  recovered := Some(CollaboratorPanic(c));
                case Returned(None) =>
                case Returned(Some(err)) =>
                  var currentSession := a.current;
                  if canNotResume(err) {
                    currentSession := currentSession.(id := "", lastSeq := 0);
                  }
                  if canNotIdentify(err) {
                    recovered := Some(CanNotIdentifyPanic(err));
                  } else {
                    Send(currentSession);
                  }
              }
          }
      }
      if recovered.Some? {
        report := Some(PanicReport(recovered.value, session));
        Send(session);
      }
    }
  }
}

=== FILE: websocket_client_event.dfy ===
/**
 * Frame dispatch (package websocket/client): a constant two-level table from
 * (opcode, event type) to a category function, which decodes the frame's "d"
 * member and calls the matching DefaultHandlers slot; frames outside the table
 * go to the Plain slot.
 */
module WebsocketClient {
  import opened Wrappers
  import opened Dto
  import Websocket

  /** The nine category functions of the table: guildHandler, channelHandler, and so on. */
  datatype CategoryHandler =
    | GuildHandler | ChannelHandler | GuildMemberHandler | MessageHandler
    | MessageReactionHandler | AtMessageHandler | DirectMessageHandler
    | AudioHandler | MessageAuditHandler

  /** eventParseFuncMap: every entry lies under the dispatch opcode. */
  const EventParseFuncMap: map<OPCode, map<EventType, CategoryHandler>> := map[
    WSDispatchEvent := map[
      EventGuildCreate := GuildHandler,
      EventGuildUpdate := GuildHandler,
      EventGuildDelete := GuildHandler,
      EventChannelCreate := ChannelHandler,
      EventChannelUpdate := ChannelHandler,
      EventChannelDelete := ChannelHandler,
      EventGuildMemberAdd := GuildMemberHandler,
      EventGuildMemberUpdate := GuildMemberHandler,
      EventGuildMemberRemove := GuildMemberHandler,
      EventMessageCreate := MessageHandler,
      EventMessageReactionAdd := MessageReactionHandler,
      EventMessageReactionRemove := MessageReactionHandler,
      EventAtMessageCreate := AtMessageHandler,
      EventDirectMessageCreate := DirectMessageHandler,
      EventAudioStart := AudioHandler,
      EventAudioFinish := AudioHandler,
      EventAudioOnMic := AudioHandler,
      EventAudioOffMic := AudioHandler,
      EventMessageAuditPass := MessageAuditHandler,
      EventMessageAuditReject := MessageAuditHandler
    ]
  ]

  /**
   * The table's entry for a frame, as Go's two-level lookup finds it (a missing outer
   * key finds nothing). Only dispatch frames of a named event type are in the table;
   * every other frame takes the Plain path.
   */
  function Lookup(op: OPCode, ev: EventType): (r: Option<CategoryHandler>)
    ensures r.Some? ==> op == WSDispatchEvent
    ensures ev.OtherEvent? ==> r.None?
  {
    if op in EventParseFuncMap && ev in EventParseFuncMap[op] then Some(EventParseFuncMap[op][ev]) else None
  }

  /** The DefaultHandlers slot a category function calls. */
  function SlotOf(c: CategoryHandler): HandlerKind
  {
    match c
    case GuildHandler => Guild
    case ChannelHandler => Channel
    case GuildMemberHandler => GuildMember
    case MessageHandler => Message
    case MessageReactionHandler => MessageReaction
    case AtMessageHandler => ATMessage
    case DirectMessageHandler => DirectMessage
    case AudioHandler => Audio
    case MessageAuditHandler => MessageAudit
  }

  /** The structure a category function decodes into. */
  function DataOf(c: CategoryHandler): DataKind
  {
    match c
    case GuildHandler => GuildData
    case ChannelHandler => ChannelData
    case GuildMemberHandler => GuildMemberData
    case MessageHandler => MessageData
    case MessageReactionHandler => MessageReactionData
    case AtMessageHandler => ATMessageData
    case DirectMessageHandler => DirectMessageData
    case AudioHandler => AudioData
    case MessageAuditHandler => MessageAuditData
  }

  /**
   * One category function: decode the message's "d" member; on failure return the
   * decode error; otherwise call the category's slot if it is set, else return nil.
   * The only callback it can call is its own slot's, with the frame and data of its
   * own category's type, and an error without a call is always a decode error.
   */
  function HandleCategory(codec: Codec, user: UserCode, slots: HandlerSlots, c: CategoryHandler,
                          event: WSPayload, message: seq<byte>): (o: Outcome)
    ensures o.called.Some? ==>
      && o.called.value.HandlerCall?
      && o.called.value.kind == SlotOf(c) && slots.Get(SlotOf(c)) == Some(o.called.value.callback)
      && o.called.value.event == event && o.called.value.data.kind == DataOf(c)
    ensures o.called.Some? <==> ParseData(codec, message, DataOf(c)).Ok? && slots.Get(SlotOf(c)).Some?
    ensures o.called.None? && o.err.Some? ==> ParseData(codec, message, DataOf(c)).Err?
  {
    match ParseData(codec, message, DataOf(c))
    case Err(e) => Outcome(None, Some(e))
    case Ok(data) =>
      match slots.Get(SlotOf(c))
      case Some(cb) => Outcome(Some(HandlerCall(SlotOf(c), cb, event, data)), user.handle(cb, event, data))
      case None => Outcome(None, None)
  }

  /**
   * parseAndHandle: route a frame through the table, else to Plain, else do nothing.
   * A category callback runs only for a frame in the table, in the slot of the frame's
   * category and with data of that category's type; Plain runs only for a frame outside
   * the table, with the raw message.
   */
  function ParseAndHandle(codec: Codec, user: UserCode, slots: HandlerSlots, event: WSPayload): (o: Outcome)
    ensures o.called.Some? && o.called.value.HandlerCall? ==>
      && Lookup(event.opCode, event.eventType).Some?
      && o.called.value.kind == SlotOf(Lookup(event.opCode, event.eventType).value)
      && o.called.value.data.kind == DataOf(Lookup(event.opCode, event.eventType).value)
      && o.called.value.event == event
    ensures o.called.Some? && o.called.value.PlainCall? ==>
      && Lookup(event.opCode, event.eventType).None?
      && slots.plain == Some(o.called.value.callback)
      && o.called.value.event == event && o.called.value.message == event.rawMessage
  {
    match Lookup(event.opCode, event.eventType)
    case Some(c) => HandleCategory(codec, user, slots, c, event, event.rawMessage)
    case None =>
      match slots.plain
      case Some(cb) => Outcome(Some(PlainCall(cb, event, event.rawMessage)), user.plain(cb, event, event.rawMessage))
      case None => Outcome(None, None)
  }

  // ---------------------------------------------------------------------------
  // Properties
  // ---------------------------------------------------------------------------

  /** The category of each event type, written event by event: a reference reading of the table. */
  function CategoryOf(ev: EventType): Option<CategoryHandler>
  {
    match ev
    case EventGuildCreate | EventGuildUpdate | EventGuildDelete => Some(GuildHandler)
    case EventChannelCreate | EventChannelUpdate | EventChannelDelete => Some(ChannelHandler)
    case EventGuildMemberAdd | EventGuildMemberUpdate | EventGuildMemberRemove => Some(GuildMemberHandler)
    case EventMessageCreate => Some(MessageHandler)
    case EventMessageReactionAdd | EventMessageReactionRemove => Some(MessageReactionHandler)
    case EventAtMessageCreate => Some(AtMessageHandler)
    case EventDirectMessageCreate => Some(DirectMessageHandler)
    case EventAudioStart | EventAudioFinish | EventAudioOnMic | EventAudioOffMic => Some(AudioHandler)
    case EventMessageAuditPass | EventMessageAuditReject => Some(MessageAuditHandler)
    case OtherEvent(_) => None
  }

  /** The table under the dispatch opcode agrees with the reference reading on every event type. */
  lemma TableIsCategoryOf(ev: EventType)
    ensures Lookup(WSDispatchEvent, ev) == CategoryOf(ev)
  {
    var inner := EventParseFuncMap[WSDispatchEvent];
    if ev.OtherEvent? {
      assert ev !in inner;
    }
  }

  /**
   * The table routes to a category function exactly the events whose intent bits
   * registering that category's callback declares; no other event is in the table.
   */
  lemma TableMatchesIntentGroups(ev: EventType, c: CategoryHandler)
    ensures Lookup(WSDispatchEvent, ev) == Some(c) <==> ev in Websocket.IntentEvents(SlotOf(c))
  {
    TableIsCategoryOf(ev);
    match c
    case GuildHandler =>
    case ChannelHandler =>
    case GuildMemberHandler =>
    case MessageHandler =>
    case MessageReactionHandler =>
    case AtMessageHandler =>
    case DirectMessageHandler =>
    case AudioHandler =>
    case MessageAuditHandler =>
  }

  /** Event types of one group share one function: guild, audio and audit events. */
  lemma GroupsShareHandler()
    ensures Lookup(WSDispatchEvent, EventGuildCreate) == Lookup(WSDispatchEvent, EventGuildUpdate)
      == Lookup(WSDispatchEvent, EventGuildDelete) == Some(GuildHandler)
    ensures Lookup(WSDispatchEvent, EventAudioStart) == Lookup(WSDispatchEvent, EventAudioFinish)
      == Lookup(WSDispatchEvent, EventAudioOnMic) == Lookup(WSDispatchEvent, EventAudioOffMic) == Some(AudioHandler)
    ensures Lookup(WSDispatchEvent, EventMessageAuditPass) == Lookup(WSDispatchEvent, EventMessageAuditReject)
      == Some(MessageAuditHandler)
  {
  }

  /** Each category function calls its own slot, and none calls Ready, ErrorNotify or Plain. */
  lemma SlotsAreDistinct(c1: CategoryHandler, c2: CategoryHandler)
    ensures SlotOf(c1) == SlotOf(c2) ==> c1 == c2
    ensures SlotOf(c1) !in {Ready, ErrorNotify, Plain}
  {
  }

  /** A frame in the table is handled by its category function alone; Plain never runs for it. */
  lemma MappedFrameNeverPlain(codec: Codec, user: UserCode, slots: HandlerSlots, event: WSPayload)
    requires Lookup(event.opCode, event.eventType).Some?
    ensures var o := ParseAndHandle(codec, user, slots, event);
      o == HandleCategory(codec, user, slots, Lookup(event.opCode, event.eventType).value, event, event.rawMessage)
      && (o.called.Some? ==> o.called.value.HandlerCall?)
  {
  }

  /** A frame outside the table goes to Plain with its raw message when Plain is set, and is a no-op otherwise. */
  lemma UnmappedFrame(codec: Codec, user: UserCode, slots: HandlerSlots, event: WSPayload)
    requires Lookup(event.opCode, event.eventType).None?
    ensures slots.plain.None? ==> ParseAndHandle(codec, user, slots, event) == Outcome(None, None)
    ensures slots.plain.Some? ==>
      (ParseAndHandle(codec, user, slots, event)
         == Outcome(Some(PlainCall(slots.plain.value, event, event.rawMessage)),
                    user.plain(slots.plain.value, event, event.rawMessage)))
  {
  }

  /** A decode failure is returned as is and no callback runs. */
  lemma DecodeFailureCallsNothing(codec: Codec, user: UserCode, slots: HandlerSlots, c: CategoryHandler,
                                  event: WSPayload, message: seq<byte>)
    requires ParseData(codec, message, DataOf(c)).Err?
    ensures HandleCategory(codec, user, slots, c, event, message)
      == Outcome(None, Some(ParseData(codec, message, DataOf(c)).error))
  {
  }

  /** A decoded frame whose slot is empty is dropped without error. */
  lemma EmptySlotIsNil(codec: Codec, user: UserCode, slots: HandlerSlots, c: CategoryHandler,
                       event: WSPayload, message: seq<byte>)
    requires ParseData(codec, message, DataOf(c)).Ok?
    requires slots.Get(SlotOf(c)).None?
    ensures HandleCategory(codec, user, slots, c, event, message) == Outcome(None, None)
  {
  }

  /**
   * A frame in the table whose slot holds nil (never filled, or filled with a typed
   * nil) reaches no callback, whatever intent was declared for it.
   */
  lemma NilSlotFrameReachesNoCallback(codec: Codec, user: UserCode, slots: HandlerSlots, event: WSPayload)
    requires Lookup(event.opCode, event.eventType).Some?
    requires slots.Get(SlotOf(Lookup(event.opCode, event.eventType).value)).None?
    ensures ParseAndHandle(codec, user, slots, event).called == None
  {
  }

  /** A decoded frame whose slot is set returns exactly what that callback returns. */
  lemma SetSlotResult(codec: Codec, user: UserCode, slots: HandlerSlots, c: CategoryHandler,
                      event: WSPayload, message: seq<byte>)
    requires ParseData(codec, message, DataOf(c)).Ok?
    requires slots.Get(SlotOf(c)).Some?
    ensures var data, cb := ParseData(codec, message, DataOf(c)).value, slots.Get(SlotOf(c)).value;
      HandleCategory(codec, user, slots, c, event, message)
        == Outcome(Some(HandlerCall(SlotOf(c), cb, event, data)), user.handle(cb, event, data))
  {
  }

  /**
   * The builder's AT-message function and the global path agree on AT-message frames
   * when the global slot holds the same callback.
   */
  lemma AtMessageBuilderAgrees(codec: Codec, user: UserCode, slots: HandlerSlots, h: Callback, event: WSPayload)
    requires event.opCode == WSDispatchEvent && event.eventType == EventAtMessageCreate
    requires slots.atMessage == Some(h)
    ensures RunParseFunc(codec, user, AtMessageParse(h), event, event.rawMessage)
      == ParseAndHandle(codec, user, slots, event)
  {
  }
}

=== FILE: websocket_handler.dfy ===
/**
 * Handler registration (package websocket): RegisterHandlers files each callback
 * into its DefaultHandlers slot and accumulates the intent bits of the categories
 * it saw, in three passes over the same list.
 */
module Websocket {
  import opened Wrappers
  import opened Dto

  /** The events whose intent bits registering a callback of type `k` ORs in. */
  function IntentEvents(k: HandlerKind): seq<EventType>
  {
    match k
    case Ready => []
    case ErrorNotify => []
    case Plain => []
    case Audio => [EventAudioStart, EventAudioFinish, EventAudioOnMic, EventAudioOffMic]
    case Guild => [EventGuildCreate, EventGuildDelete, EventGuildUpdate]
    case GuildMember => [EventGuildMemberAdd, EventGuildMemberRemove, EventGuildMemberUpdate]
    case Channel => [EventChannelCreate, EventChannelDelete, EventChannelUpdate]
    case Message => [EventMessageCreate]
    case ATMessage => [EventAtMessageCreate]
    case DirectMessage => [EventDirectMessageCreate]
    case MessageReaction => [EventMessageReactionAdd, EventMessageReactionRemove]
    case MessageAudit => [EventMessageAuditPass, EventMessageAuditReject]
  }

  /** The bits one value contributes; an unrecognised value contributes none. */
  function HandlerIntent(table: IntentTable, h: Handler): Intent
  {
    if h.Typed? then EventToIntent(table, IntentEvents(h.kind)) else {}
  }

  /** Whether `h` is a callback whose type is among `kinds`. */
  predicate OfKind(h: Handler, kinds: set<HandlerKind>)
  {
    h.Typed? && h.kind in kinds
  }

  /** The OR of the bits of every value in `hs` whose type is among `kinds`. */
  function IntentFrom(table: IntentTable, hs: seq<Handler>, kinds: set<HandlerKind>): Intent
  {
    if hs == [] then {}
    else
      var last := hs[|hs| - 1];
      IntentFrom(table, hs[..|hs| - 1], kinds) + (if OfKind(last, kinds) then HandlerIntent(table, last) else {})
  }

  /** The intent RegisterHandlers is meant to return: the bits of every value in the list. */
  function IntentOf(table: IntentTable, hs: seq<Handler>): Intent
  {
    IntentFrom(table, hs, AllKinds)
  }

  /** What slot `k` holds after the values `hs` are filed in order over a slot that held `prior`. */
  function LastRegistered(hs: seq<Handler>, k: HandlerKind, prior: Option<Callback>): Option<Callback>
  {
    if hs == [] then prior
    else
      var last := hs[|hs| - 1];
      if OfKind(last, {k}) then last.callback else LastRegistered(hs[..|hs| - 1], k, prior)
  }

  /** The slot types each of the three passes handles. */
  const FirstPass: set<HandlerKind> := {Ready, ErrorNotify, Plain, Audio}
  const RelationPass: set<HandlerKind> := {Guild, GuildMember, Channel}
  const MessagePass: set<HandlerKind> := {Message, ATMessage, DirectMessage, MessageReaction, MessageAudit}

  /** `after` is `before` with the slots of types in `kinds` filed from `hs`, the others untouched. */
  ghost predicate Filed(before: HandlerSlots, after: HandlerSlots, hs: seq<Handler>, kinds: set<HandlerKind>)
  {
    forall k :: after.Get(k) == if k in kinds then LastRegistered(hs, k, before.Get(k)) else before.Get(k)
  }

  /** The record after one value is filed by a pass that handles the types in `kinds`. */
  function FileOne(slots: HandlerSlots, h: Handler, kinds: set<HandlerKind>): HandlerSlots
  {
    if OfKind(h, kinds) then slots.Set(h.kind, h.callback) else slots
  }

  /** Filing the next value of the list extends a pass by one step. */
  lemma FiledStep(before: HandlerSlots, cur: HandlerSlots, hs: seq<Handler>, n: nat, kinds: set<HandlerKind>)
    requires n < |hs|
    requires Filed(before, cur, hs[..n], kinds)
    ensures Filed(before, FileOne(cur, hs[n], kinds), hs[..n + 1], kinds)
  {
    assert hs[..n + 1][..n] == hs[..n];
  }

  /** The bits of the next value of the list extend a pass's intent by one step. */
  lemma IntentStep(table: IntentTable, hs: seq<Handler>, n: nat, kinds: set<HandlerKind>)
    requires n < |hs|
    ensures IntentFrom(table, hs[..n + 1], kinds)
      == IntentFrom(table, hs[..n], kinds) + (if OfKind(hs[n], kinds) then HandlerIntent(table, hs[n]) else {})
  {
    assert hs[..n + 1][..n] == hs[..n];
  }

  // ---------------------------------------------------------------------------
  // Properties of the specification
  // ---------------------------------------------------------------------------

  /** Splitting the slot types between passes splits the bits between them. */
  lemma {:induction false} IntentFromUnion(table: IntentTable, hs: seq<Handler>, a: set<HandlerKind>, b: set<HandlerKind>)
    ensures IntentFrom(table, hs, a) + IntentFrom(table, hs, b) == IntentFrom(table, hs, a + b)
  {
    if hs != [] {
      IntentFromUnion(table, hs[..|hs| - 1], a, b);
    }
  }

  /** Three passes over disjoint slot types file every slot as one pass over all types would. */
  lemma ComposePasses(s0: HandlerSlots, s1: HandlerSlots, s2: HandlerSlots, s3: HandlerSlots, hs: seq<Handler>)
    requires Filed(s0, s1, hs, FirstPass)
    requires Filed(s1, s2, hs, RelationPass)
    requires Filed(s2, s3, hs, MessagePass)
    ensures Filed(s0, s3, hs, AllKinds)
  {
    forall k
      ensures s3.Get(k) == LastRegistered(hs, k, s0.Get(k))
    {
      AllKindsComplete(k);
      if k in FirstPass {
        assert k !in RelationPass && k !in MessagePass;
      } else if k in RelationPass {
        assert k !in MessagePass;
      }
    }
  }

  /** The three passes together cover every slot type. */
  lemma PassesCoverAll()
    ensures FirstPass + RelationPass + MessagePass == AllKinds
  {
  }

  /** Appending one value ORs in exactly that value's bits. */
  lemma IntentOfSnoc(table: IntentTable, hs: seq<Handler>, h: Handler)
    ensures IntentOf(table, hs + [h]) == IntentOf(table, hs) + HandlerIntent(table, h)
  {
    assert (hs + [h])[..|hs|] == hs;
    if h.Typed? {
      AllKindsComplete(h.kind);
    }
  }

  /**
   * A bit is in the intent exactly when some value in the list is a callback whose
   * category owns that bit: the intent is the union of the registered categories' groups.
   */
  lemma {:induction false} IntentOfMembership(table: IntentTable, hs: seq<Handler>, b: IntentBit)
    ensures b in IntentOf(table, hs) <==> exists j :: 0 <= j < |hs| && b in HandlerIntent(table, hs[j])
  {
    if hs != [] {
      var init, last := hs[..|hs| - 1], hs[|hs| - 1];
      assert hs == init + [last];
      IntentOfSnoc(table, init, last);
      IntentOfMembership(table, init, b);
      if b in IntentOf(table, hs) {
        if b in IntentOf(table, init) {
          var j :| 0 <= j < |init| && b in HandlerIntent(table, init[j]);
          assert hs[j] == init[j];
        } else {
          assert b in HandlerIntent(table, hs[|hs| - 1]);
        }
      } else {
        forall j | 0 <= j < |hs|
          ensures b !in HandlerIntent(table, hs[j])
        {
          if j < |init| {
            assert hs[j] == init[j];
          }
        }
      }
    }
  }

  lemma AllKindsComplete(k: HandlerKind)
    ensures k in AllKinds
  {
  }

  /** The intent depends only on which values are in the list, not on their order or repetition. */
  lemma IntentOrderIndependent(table: IntentTable, hs1: seq<Handler>, hs2: seq<Handler>)
    requires forall h :: h in hs1 <==> h in hs2
    ensures IntentOf(table, hs1) == IntentOf(table, hs2)
  {
    forall b | b in IntentOf(table, hs1)
      ensures b in IntentOf(table, hs2)
    {
      IntentOfMembership(table, hs1, b);
      var j :| 0 <= j < |hs1| && b in HandlerIntent(table, hs1[j]);
      assert hs1[j] in hs2;
      var j2 :| 0 <= j2 < |hs2| && hs2[j2] == hs1[j];
      IntentOfMembership(table, hs2, b);
    }
    forall b | b in IntentOf(table, hs2)
      ensures b in IntentOf(table, hs1)
    {
      IntentOfMembership(table, hs2, b);
      var j :| 0 <= j < |hs2| && b in HandlerIntent(table, hs2[j]);
      assert hs2[j] in hs1;
      var j1 :| 0 <= j1 < |hs1| && hs1[j1] == hs2[j];
      IntentOfMembership(table, hs1, b);
    }
  }

  /** Registering more values never removes a bit: the intent of a concatenation is the union. */
  lemma {:induction false} IntentOfAppend(table: IntentTable, hs1: seq<Handler>, hs2: seq<Handler>)
    ensures IntentOf(table, hs1 + hs2) == IntentOf(table, hs1) + IntentOf(table, hs2)
  {
    if hs2 != [] {
      var init := hs2[..|hs2| - 1];
      assert (hs1 + hs2)[..|hs1 + hs2| - 1] == hs1 + init;
      IntentOfAppend(table, hs1, init);
    } else {
      assert hs1 + hs2 == hs1;
    }
  }

  /** Ready, ErrorNotify and Plain callbacks fill slots but carry no intent bits. */
  lemma CrossCuttingCarryNoBits(table: IntentTable, cb: Option<Callback>)
    ensures HandlerIntent(table, Typed(Ready, cb)) == {}
    ensures HandlerIntent(table, Typed(ErrorNotify, cb)) == {}
    ensures HandlerIntent(table, Typed(Plain, cb)) == {}
  {
  }

  /** A value of no recognised type changes no slot and adds no bit. */
  lemma UnrecognisedIgnored(table: IntentTable, hs: seq<Handler>, k: HandlerKind, prior: Option<Callback>)
    ensures IntentOf(table, hs + [Unrecognised]) == IntentOf(table, hs)
    ensures LastRegistered(hs + [Unrecognised], k, prior) == LastRegistered(hs, k, prior)
  {
    assert (hs + [Unrecognised])[..|hs|] == hs;
  }

  /** Of several callbacks of one type, the slot ends up holding the one that came last. */
  lemma {:induction false} LastWins(hs: seq<Handler>, k: HandlerKind, prior: Option<Callback>, j: nat)
    requires j < |hs| && OfKind(hs[j], {k})
    requires forall i :: j < i < |hs| ==> !OfKind(hs[i], {k})
    ensures LastRegistered(hs, k, prior) == hs[j].callback
  {
    if j < |hs| - 1 {
      var init := hs[..|hs| - 1];
      assert !OfKind(hs[|hs| - 1], {k});
      assert init[j] == hs[j];
      LastWins(init, k, prior, j);
    }
  }

  /** A slot whose type does not occur in the list keeps what it held. */
  lemma {:induction false} AbsentKindUntouched(hs: seq<Handler>, k: HandlerKind, prior: Option<Callback>)
    requires forall i :: 0 <= i < |hs| ==> !OfKind(hs[i], {k})
    ensures LastRegistered(hs, k, prior) == prior
  {
    if hs != [] {
      AbsentKindUntouched(hs[..|hs| - 1], k, prior);
    }
  }

  /** Whatever a slot holds after registration came from the list, with the slot's own type, or was there before. */
  lemma {:induction false} SlotHoldsItsOwnType(hs: seq<Handler>, k: HandlerKind, prior: Option<Callback>)
    ensures var r := LastRegistered(hs, k, prior); r == prior || Typed(k, r) in hs
  {
    if hs != [] {
      var init := hs[..|hs| - 1];
      SlotHoldsItsOwnType(init, k, prior);
      if !OfKind(hs[|hs| - 1], {k}) && LastRegistered(init, k, prior) != prior {
        var h := Typed(k, LastRegistered(init, k, prior));
        var i :| 0 <= i < |init| && init[i] == h;
        assert hs[i] == h;
      }
    }
  }

  /**
   * A typed nil is still a value of its type: it empties its slot, yet its group's
   * bits are declared all the same.
   */
  lemma TypedNilDeclaresButClears(table: IntentTable, hs: seq<Handler>, k: HandlerKind, prior: Option<Callback>)
    ensures LastRegistered(hs + [Typed(k, None)], k, prior) == None
    ensures EventToIntent(table, IntentEvents(k)) <= IntentOf(table, hs + [Typed(k, None)])
  {
    IntentOfSnoc(table, hs, Typed(k, None));
  }

  /** The unit test's registration: guild, message and audio callbacks yield exactly their three groups. */
  lemma GuildMessageAudioIntent(table: IntentTable, guild: Option<Callback>, message: Option<Callback>, audio: Option<Callback>)
    ensures IntentOf(table, [Typed(Guild, guild), Typed(Message, message), Typed(Audio, audio)])
      == EventToIntent(table, IntentEvents(Guild))
       + EventToIntent(table, IntentEvents(Message))
       + EventToIntent(table, IntentEvents(Audio))
  {
    var g, m, a := Typed(Guild, guild), Typed(Message, message), Typed(Audio, audio);
    IntentOfSnoc(table, [], g);
    IntentOfSnoc(table, [g], m);
    IntentOfSnoc(table, [g, m], a);
    assert [] + [g] == [g] && [g] + [m] == [g, m] && [g, m] + [a] == [g, m, a];
    calc {
      IntentOf(table, [g, m, a]);
      IntentOf(table, [g, m]) + HandlerIntent(table, a);
      IntentOf(table, [g]) + HandlerIntent(table, m) + HandlerIntent(table, a);
      IntentOf(table, []) + HandlerIntent(table, g) + HandlerIntent(table, m) + HandlerIntent(table, a);
      { assert IntentOf(table, []) == {}; }
      HandlerIntent(table, g) + HandlerIntent(table, m) + HandlerIntent(table, a);
    }
  }

  /** Registering only an audio callback declares exactly the audio group's bits. */
  lemma AudioOnlyIntent(table: IntentTable, audio: Option<Callback>)
    ensures IntentOf(table, [Typed(Audio, audio)])
      == EventToIntent(table, [EventAudioStart, EventAudioFinish, EventAudioOnMic, EventAudioOffMic])
  {
    IntentOfSnoc(table, [], Typed(Audio, audio));
    assert [] + [Typed(Audio, audio)] == [Typed(Audio, audio)];
  }

  /** The instance-scoped builder declares the same intent as registering the callback globally. */
  lemma AtMessageIntentAgrees(table: IntentTable, h: Callback)
    ensures WithAtMessage(NewParserState, table, h).intent == IntentOf(table, [Typed(ATMessage, Some(h))])
  {
    IntentOfSnoc(table, [], Typed(ATMessage, Some(h)));
    assert [] + [Typed(ATMessage, Some(h))] == [Typed(ATMessage, Some(h))];
  }

  // ---------------------------------------------------------------------------
  // The registration passes
  // ---------------------------------------------------------------------------

  /** The process-wide DefaultHandlers variable, which registration writes in place. */
  class Registry {
    var defaultHandlers: HandlerSlots

    /** The package variable starts as its zero value. */
    constructor ()
      ensures defaultHandlers == ZeroHandlers
    {
      defaultHandlers := ZeroHandlers;
    }

    /**
     * RegisterHandlers: files every recognised callback into its slot and returns
     * the OR of the intent groups of every category callback in the list.
     */
    method RegisterHandlers(table: IntentTable, handlers: seq<Handler>) returns (i: Intent)
      modifies this
      ensures i == IntentOf(table, handlers)
      ensures Filed(old(defaultHandlers), defaultHandlers, handlers, AllKinds)
    {
      var before := defaultHandlers;
      i := {};
      for n := 0 to |handlers|
        invariant i == IntentFrom(table, handlers[..n], FirstPass)
        invariant Filed(before, defaultHandlers, handlers[..n], FirstPass)
      {
        FiledStep(before, defaultHandlers, handlers, n, FirstPass);
        IntentStep(table, handlers, n, FirstPass);
        ghost var next := FileOne(defaultHandlers, handlers[n], FirstPass);
        match handlers[n]
        case Typed(Ready, cb) =>
          defaultHandlers := defaultHandlers.(ready := cb);
        case Typed(ErrorNotify, cb) =>
          defaultHandlers := defaultHandlers.(errorNotify := cb);
        case Typed(Plain, cb) =>
          defaultHandlers := defaultHandlers.(plain := cb);
        case Typed(Audio, cb) =>
          defaultHandlers := defaultHandlers.(audio := cb);
          i := i + EventToIntent(table, [EventAudioStart, EventAudioFinish, EventAudioOnMic, EventAudioOffMic]);
        case _ =>
          assert defaultHandlers == next;
      }
      assert handlers[..|handlers|] == handlers;
      ghost var afterFirst := defaultHandlers;
      var relation := RegisterRelationHandlers(table, i, handlers);
      i := i + relation;
      ghost var afterRelation := defaultHandlers;
      var message := RegisterMessageHandlers(table, i, handlers);
      i := i + message;
      IntentFromUnion(table, handlers, FirstPass, RelationPass);
      IntentFromUnion(table, handlers, FirstPass + RelationPass, MessagePass);
      PassesCoverAll();
      ComposePasses(before, afterFirst, afterRelation, defaultHandlers, handlers);
    }

    /** registerRelationHandlers: files guild, guild-member and channel callbacks. */
    method RegisterRelationHandlers(table: IntentTable, i: Intent, handlers: seq<Handler>) returns (r: Intent)
      modifies this
      ensures r == i + IntentFrom(table, handlers, RelationPass)
      ensures Filed(old(defaultHandlers), defaultHandlers, handlers, RelationPass)
    {
      var before := defaultHandlers;
      r := i;
      for n := 0 to |handlers|
        invariant r == i + IntentFrom(table, handlers[..n], RelationPass)
        invariant Filed(before, defaultHandlers, handlers[..n], RelationPass)
      {
        FiledStep(before, defaultHandlers, handlers, n, RelationPass);
        IntentStep(table, handlers, n, RelationPass);
        ghost var next := FileOne(defaultHandlers, handlers[n], RelationPass);
        match handlers[n]
        case Typed(Guild, cb) =>
          defaultHandlers := defaultHandlers.(guild := cb);
          r := r + EventToIntent(table, [EventGuildCreate, EventGuildDelete, EventGuildUpdate]);
        case Typed(GuildMember, cb) =>
          defaultHandlers := defaultHandlers.(guildMember := cb);
          r := r + EventToIntent(table, [EventGuildMemberAdd, EventGuildMemberRemove, EventGuildMemberUpdate]);
        case Typed(Channel, cb) =>
          defaultHandlers := defaultHandlers.(channel := cb);
          r := r + EventToIntent(table, [EventChannelCreate, EventChannelDelete, EventChannelUpdate]);
        case _ =>
          assert defaultHandlers == next;
      }
      assert handlers[..|handlers|] == handlers;
    }

    /** registerMessageHandlers: files message, AT-message, direct-message, reaction and audit callbacks. */
    method RegisterMessageHandlers(table: IntentTable, i: Intent, handlers: seq<Handler>) returns (r: Intent)
      modifies this
      ensures r == i + IntentFrom(table, handlers, MessagePass)
      ensures Filed(old(defaultHandlers), defaultHandlers, handlers, MessagePass)
    {
      var before := defaultHandlers;
      r := i;
      for n := 0 to |handlers|
        invariant r == i + IntentFrom(table, handlers[..n], MessagePass)
        invariant Filed(before, defaultHandlers, handlers[..n], MessagePass)
      {
        FiledStep(before, defaultHandlers, handlers, n, MessagePass);
        IntentStep(table, handlers, n, MessagePass);
        ghost var next := FileOne(defaultHandlers, handlers[n], MessagePass);
        match handlers[n]
        case Typed(Message, cb) =>
          defaultHandlers := defaultHandlers.(message := cb);
          r := r + EventToIntent(table, [EventMessageCreate]);
        case Typed(ATMessage, cb) =>
          defaultHandlers := defaultHandlers.(atMessage := cb);
          r := r + EventToIntent(table, [EventAtMessageCreate]);
        case Typed(DirectMessage, cb) =>
          defaultHandlers := defaultHandlers.(directMessage := cb);
          r := r + EventToIntent(table, [EventDirectMessageCreate]);
        case Typed(MessageReaction, cb) =>
          defaultHandlers := defaultHandlers.(messageReaction := cb);
          r := r + EventToIntent(table, [EventMessageReactionAdd, EventMessageReactionRemove]);
        case Typed(MessageAudit, cb) =>
          defaultHandlers := defaultHandlers.(messageAudit := cb);
          r := r + EventToIntent(table, [EventMessageAuditPass, EventMessageAuditReject]);
        case _ =>
          assert defaultHandlers == next;
      }
      assert handlers[..|handlers|] == handlers;
    }
  }
}

=== FILE: wrappers.dfy ===
/** Optional values and results with an error, as Go expresses them with nil and (value, error) pairs. */
module Wrappers {

  /** A value that may be absent: a nil function value, a missing map entry, a nil error. */
  datatype Option<+T> = None | Some(value: T)

  /** The outcome of an operation that may fail with an error. */
  datatype Result<+T, +E> = Ok(value: T) | Err(error: E)
}
